=== FILE: README.md ===
# Debug menu and drawer widgets, modelled in Dafny

The repository ships three copy-paste UI widgets: a debug menu that builds
its own markup from a configuration object, a debug menu that attaches to
existing markup, and a drawer/sidebar. Under their DOM calls each one is a
small sequential state machine. This project models them with plain
records and pure functions:

- the DOM becomes records: an element is a class set plus an attribute map,
  lookup by id is a map from ids to elements (the empty id never matches), `querySelector` is the set of
  selectors that match, and "the click target lies inside X" is a flag on
  the click;
- the document's listeners are counted (`MenuToggle.Bindings`, the drawer's
  `button`/`keydown` flags), and an event is delivered once per listener;
- the keyboard gate (`Keyboard.Gate`) is shared by all three widgets: it is
  silenced by editable focus or a held modifier, and otherwise fires exactly
  on an ASCII case-insensitive match with the trigger key;
- both debug menus share one open/close state machine (`MenuToggle`); the
  drawer has its own (`Drawer`), which also keeps `aria-hidden` in step;
- the self-building menu's item list renders through the pure
  `MenuRender.Render`, with an imperative loop (`MenuRender.RenderList`)
  proved equal to it.

Two behaviours of the self-building menu are modelled as written and stated
as lemmas. Every `addItem`/`refresh` attaches another document keydown and
click listener of each enabled kind to the same instance, so with the
keyboard trigger on, after one `addItem` a trigger-key press flips the menu
twice and the shortcut no longer opens it
(`BuiltMenu.TriggerKeyCancelsAfterAddItem`). A rebuild also recreates every
element in the closed look without resetting `isOpen`, so refreshing an open
menu leaves it desynchronised (`BuiltMenu.RefreshWhileOpenDesyncs`).

Files: `keyboard.dfy`, `dom.dfy`, `config.dfy`, `menu_toggle.dfy`,
`menu_render.dfy`, `built_menu.dfy` (debug-menu-full-js), `attached_menu.dfy`
(debug-menu), `drawer.dfy` (drawer-sidebar).

## Model

| member | source | states |
|---|---|---|
| Keyboard.Gate | debug-menu-full-js/js/debug-menu.js:164-181 | the handler is suppressed exactly when INPUT/TEXTAREA/contentEditable has focus or ctrl/meta/alt is held; otherwise it fires (prevent default, toggle) exactly when the key equals the trigger key ignoring ASCII case |
| Keyboard.Lower | debug-menu-full-js/js/debug-menu.js:177 | the ASCII stand-in for `toLowerCase`: same length, and each character is lower-cased if it is an upper-case ASCII letter and kept otherwise |
| Keyboard.LowerEqIff | debug-menu-full-js/js/debug-menu.js:177 | comparing lower-cased strings is exactly character-wise equality up to letter case, in both directions |
| Keyboard.GateIgnoresCase | drawer-sidebar/js/drawer.js:65 | lower-casing either the pressed key or the configured key never changes the handler's decision |
| Keyboard.SameIgnoringCaseEquivalence | debug-menu/js/debug-menu.js:79 | the key match is reflexive, symmetric and transitive |
| Config.MergeTrigger | debug-menu-full-js/js/debug-menu.js:39 | each trigger field the caller sets wins, each one left out keeps its own default, and a missing trigger object leaves all defaults |
| Config.MergeTriggerOverridesAndSettles | debug-menu/js/debug-menu.js:32 | a fully specified trigger ignores the defaults, an empty one yields them, and re-merging the same caller object changes nothing |
| MenuToggle.Open | debug-menu-full-js/js/debug-menu.js:198-203 | afterwards the menu is open, `is-open`, `is-active` and `aria-expanded="true"` agree with it, and no other class or attribute changed |
| MenuToggle.Close | debug-menu-full-js/js/debug-menu.js:205-210 | afterwards the menu is closed and synchronised, and no other class or attribute changed |
| MenuToggle.ToggleMenu | debug-menu-full-js/js/debug-menu.js:194-196 | flips the flag and leaves the elements synchronised with the new state |
| MenuToggle.ClickOutside | debug-menu-full-js/js/debug-menu.js:183-192 | never opens; changes nothing when the menu is closed or the click lands in the menu or on the toggle; otherwise closes |
| MenuToggle.HandleKeydown | debug-menu/js/debug-menu.js:66-83 | one listener toggles the menu when the gate fires and leaves it untouched otherwise |
| MenuToggle.KeydownListeners | debug-menu-full-js/js/debug-menu.js:154-156 | with n keydown listeners on one instance a firing key flips the flag n times (net flip iff n is odd) and touches no class or attribute besides `is-open`, `is-active` and `aria-expanded`; any other key changes nothing |
| MenuToggle.ClickOutsideListeners | debug-menu-full-js/js/debug-menu.js:159-161 | any positive number of stacked click-outside listeners acts like exactly one |
| MenuToggle.Dispatch | debug-menu/js/debug-menu.js:47-63 | a toggle click with the button listener flips once and does not reach the document listeners; any other click goes to click-outside dismissal when a click listener exists (and can only close) and changes nothing when none exists; a firing key flips once per keydown listener and leaves the menu synchronised, while without a keydown listener or with any other key nothing changes; no class or attribute besides the three state marks ever changes |
| MenuToggle.OpenIdempotent | debug-menu/js/debug-menu.js:100-105 | opening twice equals opening once |
| MenuToggle.CloseIdempotent | debug-menu/js/debug-menu.js:107-112 | closing twice equals closing once |
| MenuToggle.ToggleTwiceRestoresFlag | debug-menu/js/debug-menu.js:96-98 | two toggles restore the flag from any state |
| MenuToggle.ToggleInvolution | debug-menu-full-js/js/debug-menu.js:194-210 | from a synchronised state two toggles restore flag, classes and attributes exactly |
| MenuToggle.ToggleTwiceFromDesync | debug-menu-full-js/js/debug-menu.js:194-196 | from an open-but-closed-looking state two toggles do not restore the elements |
| MenuToggle.OnlyToggleClickOpens | debug-menu/js/debug-menu.js:48-52 | a click opens a closed menu exactly when it lands on the toggle and the button trigger is bound |
| MenuRender.RenderItem | debug-menu-full-js/js/debug-menu.js:89-111 | the anchor keeps the href; a truthy icon gives class `has-icon` and an image with that src before the label span, otherwise only the label span; target is set only when truthy |
| MenuRender.AnchorRoundTrip | debug-menu-full-js/js/debug-menu.js:93-111 | the item (label, href, truthy icon and target) can be read back off its anchor, and two items render alike exactly when those fields agree |
| MenuRender.Render | debug-menu-full-js/js/debug-menu.js:88-123 | the list has one entry per item plus one per separator-flagged item |
| MenuRender.RenderAppend | debug-menu-full-js/js/debug-menu.js:88 | rendering distributes over concatenation of item lists |
| MenuRender.EntryLayout | debug-menu-full-js/js/debug-menu.js:113-122 | item i's anchor sits at position i plus the separators before it, a separator follows it exactly when flagged, and the next item's anchor comes right after |
| MenuRender.RenderedLinks | debug-menu-full-js/js/debug-menu.js:88-123 | the anchors of the list are the items' anchors in input order, and the separator count equals the number of flagged items |
| MenuRender.SeparatorsFollowLinks | debug-menu-full-js/js/debug-menu.js:116-122 | every separator directly follows an anchor |
| MenuRender.RenderList | debug-menu-full-js/js/debug-menu.js:84-123 | the per-item loop builds exactly the rendered list |
| MenuRender.ThreeItemExample | debug-menu-full-js/js/debug-menu.js:88-123 | items A, B (separator), C (icon x.png) render as A, B, separator, C with an `x.png` image |
| BuiltMenu.MergeOptions | debug-menu-full-js/js/debug-menu.js:25-39 | top-level options override defaults (null container, title "Menu", no items, click-outside on); trigger fields default to true/true/"Escape" individually |
| BuiltMenu.PartialTriggerKeepsDefaults | debug-menu-full-js/js/debug-menu.js:39 | a trigger object setting only `key` keeps button and keyboard on |
| BuiltMenu.Place | debug-menu-full-js/js/debug-menu.js:131-141 | the container goes into the matched parent exactly when `containerId` is truthy and matches; a missing, empty or unmatched one sends it to the end of the body |
| BuiltMenu.CreateElements | debug-menu-full-js/js/debug-menu.js:53-142 | the new elements look closed (`aria-expanded="false"`), the toggle's `aria-controls` names the card's id, the header shows the title, and the list is the rendered item list in input order (one anchor per item, one separator per flagged item) |
| BuiltMenu.BindEvents | debug-menu-full-js/js/debug-menu.js:144-162 | the new toggle gets a click listener iff the button trigger is on; document keydown and click listeners are added on top of the existing ones |
| BuiltMenu.Construct | debug-menu-full-js/js/debug-menu.js:25-51 | a new menu is closed and synchronised, renders its configured items, and has one listener of each enabled kind |
| BuiltMenu.Refresh | debug-menu-full-js/js/debug-menu.js:219-223 | the flag survives, the elements look closed, the view is re-rendered and re-inserted by the same placement rule, the new toggle gets its click listener iff the button trigger is on, and one more document listener of each enabled kind is attached |
| BuiltMenu.AddItem | debug-menu-full-js/js/debug-menu.js:213-216 | the descriptor is appended to the items, the view is re-rendered with the earlier entries in place and the new item's entries last and re-inserted by the same placement rule (even after `destroy`), the flag is kept, and the listeners are re-bound: the new toggle's click listener per the button trigger, plus one more document keydown and click listener of each enabled kind |
| BuiltMenu.Destroy | debug-menu-full-js/js/debug-menu.js:226-228 | the container is detached while the state, the rendered view, its placement and all document listeners remain |
| BuiltMenu.Dispatch | debug-menu-full-js/js/debug-menu.js:144-192 | an event changes only the state machine, which reacts exactly as the shared dispatch does with this instance's stacked listeners; a firing key flips the flag once per keydown listener |
| BuiltMenu.AddItemsStackListeners | debug-menu-full-js/js/debug-menu.js:213-223 | after k `addItem` calls the instance has k more keydown listeners, and the flag is unchanged |
| BuiltMenu.TriggerKeyCancelsAfterAddItem | debug-menu-full-js/js/debug-menu.js:155 | after one `addItem` on a fresh menu the trigger key no longer opens it |
| BuiltMenu.RefreshWhileOpenDesyncs | debug-menu-full-js/js/debug-menu.js:219-222 | refreshing an open menu leaves `isOpen` true over closed-looking elements, and the next toggle closes it with no visible change |
| BuiltMenu.DestroyedMenuStillHearsKeys | debug-menu-full-js/js/debug-menu.js:226-228 | after `destroy` the trigger key still flips the detached menu open |
| AttachedMenu.MergeOptions | debug-menu/js/debug-menu.js:19-32 | ids default to `debug-menu-toggle`/`debug-menu-card`, click-outside to on, trigger fields individually to true/true/"Escape" |
| AttachedMenu.Construct | debug-menu/js/debug-menu.js:34-64 | the menu starts closed; with either element missing no listener is attached, otherwise one of each enabled kind |
| AttachedMenu.OpenMenu | debug-menu/js/debug-menu.js:100-105 | on an instance with both elements, performs the shared `open` transition: open, synchronised, nothing else changed |
| AttachedMenu.CloseMenu | debug-menu/js/debug-menu.js:107-112 | on an instance with both elements, performs the shared `close` transition: closed, synchronised, nothing else changed |
| AttachedMenu.Dispatch | debug-menu/js/debug-menu.js:41-94 | an inert instance never changes; an active one runs the shared state machine with its listeners |
| AttachedMenu.InertInstanceIgnoresEvents | debug-menu/js/debug-menu.js:41-45 | an instance constructed with a missing element (an empty id never matches) ignores every event |
| AttachedMenu.ToggleClickFlipsOnce | debug-menu/js/debug-menu.js:48-52 | a toggle click opens a fresh menu, synchronised, with the same result as if no click-outside listener existed |
| AttachedMenu.TriggerKeyTogglesFreshMenu | debug-menu/js/debug-menu.js:55-58 | with its single keydown listener the trigger key opens the menu and a second press closes it |
| Drawer.MergeOptions | drawer-sidebar/js/drawer.js:12-27 | ids default to `drawer`/`drawer-toggle`, trigger fields individually to true/true/"m" |
| Drawer.ToggleDrawer | drawer-sidebar/js/drawer.js:71-77 | negates the flag, then `is-open` is present iff open, `aria-hidden` is the negation and `aria-expanded` the flag; nothing else changes |
| Drawer.Open | drawer-sidebar/js/drawer.js:79-84 | leaves the drawer open and synchronised |
| Drawer.Close | drawer-sidebar/js/drawer.js:86-91 | leaves the drawer closed and synchronised |
| Drawer.OpenCloseAgreeWithToggle | drawer-sidebar/js/drawer.js:71-91 | open and close are idempotent and write exactly what a toggle into the same state writes |
| Drawer.ToggleInvolution | drawer-sidebar/js/drawer.js:71-77 | from a synchronised state two toggles restore everything |
| Drawer.RunKeepsSynced | drawer-sidebar/js/drawer.js:71-91 | after any non-empty sequence of toggle/open/close, `aria-hidden` is the negation of `aria-expanded` and `is-open` is present iff open |
| Drawer.Construct | drawer-sidebar/js/drawer.js:12-50 | the drawer starts closed; with either element missing nothing is bound, otherwise the enabled triggers are |
| Drawer.OpenDrawer | drawer-sidebar/js/drawer.js:79-84 | on an instance with both elements, performs the drawer's `open` transition: open, synchronised, nothing else changed |
| Drawer.CloseDrawer | drawer-sidebar/js/drawer.js:86-91 | on an instance with both elements, performs the drawer's `close` transition: closed, synchronised, nothing else changed |
| Drawer.Dispatch | drawer-sidebar/js/drawer.js:41-69 | a toggle click with the button bound, or a firing key with the keyboard bound, toggles the drawer exactly once; nothing else changes anything |
| Drawer.NoClickOutsideDismissal | drawer-sidebar/js/drawer.js:41-49 | an open drawer stays open whatever is clicked away from its toggle |
| Drawer.InertInstanceIgnoresEvents | drawer-sidebar/js/drawer.js:36-40 | an instance constructed with a missing element (an empty id never matches) ignores every event |
| Drawer.DefaultShortcut | drawer-sidebar/js/drawer.js:52-69 | with default options `M` opens the drawer from the page body but not while a textarea has focus |

## Left out

- BuiltMenu.Place: a malformed selector makes `querySelector` throw, so the container is never inserted and no listener is bound (during `refresh` the menu disappears); the model treats such a selector as unmatching and places the container at the end of the body, because the page's selector grammar is not modelled.
- DOM APIs (`createElement`, `querySelector`, `getElementById`, `contains`, `classList`) are replaced by records, maps and flags as described above.
- The toggle's literal inner markup, the Japanese `aria-label` texts, the image's `alt`/class and the list/header class names are presentation; only the title, the entries and the state-bearing classes and attributes are modelled.
- `console.error` diagnostics and the `window.DebugMenu` export are host plumbing.
- Event propagation is reduced to "reaches the document listeners or not"; `preventDefault` is the `Fire` verdict.
- Key comparison folds ASCII letters only; full Unicode `toLowerCase` is not modelled.
- Calling `open`/`close` on an instance whose elements were not found throws in the code; the model makes element presence a precondition instead.
- A toggle id equal to the menu (or drawer) id would make both handles the same element; the model keeps them as two separate records.
- An option passed explicitly as `undefined` overrides its default in the code. The model treats it as absent, as it also treats a null `trigger` object. A trigger `key` passed explicitly as `undefined` or `null` makes `toLowerCase` throw on a keydown that passes the gate; that case is not modelled.
- Option values are typed: non-boolean truthy values for the trigger flags, `separator` or `closeOnClickOutside` are not modelled.
- `addItem` pushes into the caller's own `items` array when one was passed; that aliasing is not modelled.
- Listeners left on a removed toggle element after a rebuild are unreachable by clicks and are not counted.

=== FILE: attached_menu.dfy ===
/**
 * The attach-only debug menu: it looks up an existing toggle button and
 * menu card by id and wires the shared open/close state machine to them.
 * When either element is missing it attaches nothing and stays inert.
 */
module AttachedMenu {
  import opened Dom
  import opened Keyboard
  import opened Config
  import opened MenuToggle

  /** The caller's options; a missing field is None. */
  datatype Options = Options(
    toggleId: Option<string>,
    menuId: Option<string>,
    trigger: Option<TriggerOptions>,
    closeOnClickOutside: Option<bool>)

  datatype MenuConfig = MenuConfig(toggleId: string, menuId: string, trigger: Trigger, closeOnClickOutside: bool)

  function MergeOptions(o: Options): (c: MenuConfig)
    ensures o.toggleId.Some? ==> c.toggleId == o.toggleId.value
    ensures o.toggleId.None? ==> c.toggleId == "debug-menu-toggle"
    ensures o.menuId.Some? ==> c.menuId == o.menuId.value
    ensures o.menuId.None? ==> c.menuId == "debug-menu-card"
    ensures c.trigger.button == (if o.trigger.Some? && o.trigger.value.button.Some? then o.trigger.value.button.value else true)
    ensures c.trigger.keyboard == (if o.trigger.Some? && o.trigger.value.keyboard.Some? then o.trigger.value.keyboard.value else true)
    ensures c.trigger.key == (if o.trigger.Some? && o.trigger.value.key.Some? then o.trigger.value.key.value else "Escape")
    ensures o.closeOnClickOutside.Some? ==> c.closeOnClickOutside == o.closeOnClickOutside.value
    ensures o.closeOnClickOutside.None? ==> c.closeOnClickOutside
  {
    MenuConfig(
      o.toggleId.GetOr("debug-menu-toggle"),
      o.menuId.GetOr("debug-menu-card"),
      MergeTrigger(MENU_DEFAULT_TRIGGER, o.trigger),
      o.closeOnClickOutside.GetOr(true))
  }


  /** An instance: configuration, flag, the two handles (None when not found) and its listeners. */
  datatype Widget = Widget(
    config: MenuConfig,
    isOpen: bool,
    toggleEl: Option<Element>,
    menuEl: Option<Element>,
    bindings: Bindings)

  /** Both elements were found. */
  predicate Active(w: Widget) {
    w.toggleEl.Some? && w.menuEl.Some?
  }

  /** An instance without its elements has no listeners. */
  predicate Consistent(w: Widget) {
    !Active(w) ==> w.bindings == NO_BINDINGS
  }

  function PanelOf(w: Widget): Panel
    requires Active(w)
  {
    Panel(w.isOpen, w.menuEl.value, w.toggleEl.value)
  }

  function WithPanel(w: Widget, p: Panel): Widget {
    w.(isOpen := p.isOpen, menuEl := Some(p.menu), toggleEl := Some(p.toggle))
  }

  /**
   * Construction: merge the options, look both elements up, start closed,
   * and attach listeners only when both elements exist. The elements are
   * taken as the page has them; nothing reconciles their look with the flag.
   */
  function Construct(o: Options, doc: map<string, Element>): (w: Widget)
    ensures w.config == MergeOptions(o) && !w.isOpen
    ensures w.toggleEl == Lookup(doc, w.config.toggleId) && w.menuEl == Lookup(doc, w.config.menuId)
    ensures Active(w) <==> w.config.toggleId != "" && w.config.toggleId in doc && w.config.menuId != "" && w.config.menuId in doc
    ensures !Active(w) ==> w.bindings == NO_BINDINGS
    ensures Active(w) ==> w.bindings == Bindings(w.config.trigger.button, Count(w.config.trigger.keyboard), Count(w.config.closeOnClickOutside))
  {
    var c := MergeOptions(o);
    var toggle := Lookup(doc, c.toggleId);
    var menu := Lookup(doc, c.menuId);
    var bindings :=
      if toggle.None? || menu.None? then NO_BINDINGS
      else Bindings(c.trigger.button, Count(c.trigger.keyboard), Count(c.closeOnClickOutside));
    Widget(c, false, toggle, menu, bindings)
  }

  /** The public `open`, on an instance whose elements exist. */
  function OpenMenu(w: Widget): (r: Widget)
    requires Active(w)
    ensures Active(r) && r.isOpen && Synced(PanelOf(r))
    ensures PanelOf(r) == Open(PanelOf(w))
    ensures r.config == w.config && r.bindings == w.bindings
  {
    WithPanel(w, Open(PanelOf(w)))
  }

  /** The public `close`, on an instance whose elements exist. */
  function CloseMenu(w: Widget): (r: Widget)
    requires Active(w)
    ensures Active(r) && !r.isOpen && Synced(PanelOf(r))
    ensures PanelOf(r) == Close(PanelOf(w))
    ensures r.config == w.config && r.bindings == w.bindings
  {
    WithPanel(w, Close(PanelOf(w)))
  }

  /** Delivers one event; an inert instance has no listener that could hear it. */
  function Dispatch(w: Widget, ev: Event): (r: Widget)
    requires Consistent(w)
    ensures Consistent(r) && Active(r) == Active(w)
    ensures r.config == w.config && r.bindings == w.bindings
    ensures !Active(w) ==> r == w
    ensures Active(w) ==> r == WithPanel(w, MenuToggle.Dispatch(PanelOf(w), w.bindings, ev, w.config.trigger.key))
  {
    if !Active(w) then w
    else WithPanel(w, MenuToggle.Dispatch(PanelOf(w), w.bindings, ev, w.config.trigger.key))
  }

  /** An instance constructed without its elements never reacts to anything. */
  lemma InertInstanceIgnoresEvents(o: Options, doc: map<string, Element>, ev: Event)
    requires Lookup(doc, MergeOptions(o).toggleId).None? || Lookup(doc, MergeOptions(o).menuId).None?
    ensures Dispatch(Construct(o, doc), ev) == Construct(o, doc)
  {
  }

  /**
   * A click on the toggle with the button trigger on flips the menu exactly
   * once, however the click-outside option is set.
   */
  lemma ToggleClickFlipsOnce(o: Options, doc: map<string, Element>, t: Target)
    requires Active(Construct(o, doc)) && MergeOptions(o).trigger.button && t.inToggle
    ensures var w := Construct(o, doc);
            var r := Dispatch(w, Click(t));
            r.isOpen && Synced(PanelOf(r))
            && r == Dispatch(w.(bindings := w.bindings.(clickOutside := 0)), Click(t)).(bindings := w.bindings)
  {
    var w := Construct(o, doc);
    assert MenuToggle.Dispatch(PanelOf(w), w.bindings, Click(t), w.config.trigger.key) == ToggleMenu(PanelOf(w));
    var w' := w.(bindings := w.bindings.(clickOutside := 0));
    assert MenuToggle.Dispatch(PanelOf(w'), w'.bindings, Click(t), w'.config.trigger.key) == ToggleMenu(PanelOf(w));
  }

  /**
   * With a single keydown listener the trigger key opens a fresh menu, and a
   * second press closes it again.
   */
  lemma TriggerKeyTogglesFreshMenu(o: Options, doc: map<string, Element>, focus: Focus, key: KeyEvent)
    requires Active(Construct(o, doc)) && MergeOptions(o).trigger.keyboard
    requires Gate(focus, key, MergeOptions(o).trigger.key) == Fire
    ensures var r := Dispatch(Construct(o, doc), KeyDown(focus, key));
            r.isOpen && !Dispatch(r, KeyDown(focus, key)).isOpen
  {
  }
}

=== FILE: built_menu.dfy ===
/**
 * The self-building debug menu: it merges its options with defaults,
 * builds its toggle button, card and item list from the configuration,
 * inserts them into the page and attaches its listeners.
 *
 * Rebuilding (`addItem`, `refresh`) recreates every element in the closed
 * look and attaches a fresh set of document listeners without removing the
 * old ones, while the `isOpen` flag carries over unchanged.
 */
module BuiltMenu {
  import opened Dom
  import opened Keyboard
  import opened Config
  import opened MenuToggle
  import opened MenuRender

  /** The caller's options; a missing field (or a null `containerId`) is None. */
  datatype Options = Options(
    containerId: Option<string>,
    menuTitle: Option<string>,
    items: Option<seq<Item>>,
    trigger: Option<TriggerOptions>,
    closeOnClickOutside: Option<bool>)

  datatype MenuConfig = MenuConfig(
    containerId: Option<string>,
    menuTitle: string,
    items: seq<Item>,
    trigger: Trigger,
    closeOnClickOutside: bool)

  /** Top-level options override their defaults; `trigger` is merged field by field. */
  function MergeOptions(o: Options): (c: MenuConfig)
    ensures c.containerId == o.containerId
    ensures o.menuTitle.Some? ==> c.menuTitle == o.menuTitle.value
    ensures o.menuTitle.None? ==> c.menuTitle == "Menu"
    ensures o.items.Some? ==> c.items == o.items.value
    ensures o.items.None? ==> c.items == []
    ensures c.trigger.button == (if o.trigger.Some? && o.trigger.value.button.Some? then o.trigger.value.button.value else true)
    ensures c.trigger.keyboard == (if o.trigger.Some? && o.trigger.value.keyboard.Some? then o.trigger.value.keyboard.value else true)
    ensures c.trigger.key == (if o.trigger.Some? && o.trigger.value.key.Some? then o.trigger.value.key.value else "Escape")
    ensures o.closeOnClickOutside.Some? ==> c.closeOnClickOutside == o.closeOnClickOutside.value
    ensures o.closeOnClickOutside.None? ==> c.closeOnClickOutside
  {
    MenuConfig(
      o.containerId,
      o.menuTitle.GetOr("Menu"),
      o.items.GetOr([]),
      MergeTrigger(MENU_DEFAULT_TRIGGER, o.trigger),
      o.closeOnClickOutside.GetOr(true))
  }

  /** Where the container goes: into a matching parent, or at the end of the body. */
  datatype Placement = InParent(selector: string) | BodyEnd

  /**
   * A truthy `containerId` that matches an element (per `matches`, the set
   * of selectors the page resolves to an element) names the parent; a
   * missing, empty or unmatched one falls back to the body. A selector the
   * page rejects as malformed is treated as unmatched.
   */
  function Place(containerId: Option<string>, matches: set<string>): (p: Placement)
    ensures p.InParent? <==> Truthy(containerId) && containerId.value in matches
    ensures p.InParent? ==> p.selector == containerId.value
  {
    if Truthy(containerId) then
      if containerId.value in matches then InParent(containerId.value) else BodyEnd
    else BodyEnd
  }

  const TOGGLE_CLASS := "debug-menu-toggle"
  const CARD_CLASS := "debug-menu-card"
  const CARD_ID := "debug-menu-card"
  const CONTROLS := "aria-controls"

  /** The freshly built elements and where they were inserted. */
  datatype Built = Built(menu: Element, toggle: Element, title: string, entries: seq<Entry>, placement: Placement)

  /** Builds toggle, card, header and list; every element starts in the closed look. */
  function CreateElements(c: MenuConfig, matches: set<string>): (b: Built)
    ensures OPEN_CLASS !in b.menu.classes && ACTIVE_CLASS !in b.toggle.classes
    ensures EXPANDED in b.toggle.attrs && b.toggle.attrs[EXPANDED] == "false"
    ensures CONTROLS in b.toggle.attrs && "id" in b.menu.attrs && b.toggle.attrs[CONTROLS] == b.menu.attrs["id"]
    ensures b.title == c.menuTitle
    ensures b.entries == Render(c.items)
    ensures |Links(b.entries)| == |c.items| && SeparatorEntries(b.entries) == SeparatorCount(c.items)
    ensures b.placement == Place(c.containerId, matches)
  {
    RenderedLinks(c.items);
    var toggle := Element({TOGGLE_CLASS}, map[EXPANDED := "false", CONTROLS := CARD_ID]);
    var menu := Element({CARD_CLASS}, map["id" := CARD_ID]);
    Built(menu, toggle, c.menuTitle, Render(c.items), Place(c.containerId, matches))
  }

  /** A menu instance: its configuration, state machine, rendered view and listeners. */
  datatype Widget = Widget(
    config: MenuConfig,
    panel: Panel,
    title: string,
    entries: seq<Entry>,
    placement: Placement,
    attached: bool,
    bindings: Bindings)

  /** The view shows the configured title and items. */
  predicate Rendered(w: Widget) {
    w.title == w.config.menuTitle && w.entries == Render(w.config.items)
  }

  /** The closed look every rebuild produces. */
  predicate LooksClosed(p: Panel) {
    OPEN_CLASS !in p.menu.classes && ACTIVE_CLASS !in p.toggle.classes
    && EXPANDED in p.toggle.attrs && p.toggle.attrs[EXPANDED] == "false"
  }

  /**
   * Attaches listeners: the new toggle gets its own click listener, while
   * document keydown and click listeners are added on top of the old ones.
   */
  function BindEvents(c: MenuConfig, prior: Bindings): (b: Bindings)
    ensures b.button == c.trigger.button
    ensures b.keydown == prior.keydown + Count(c.trigger.keyboard)
    ensures b.clickOutside == prior.clickOutside + Count(c.closeOnClickOutside)
  {
    Bindings(c.trigger.button, prior.keydown + Count(c.trigger.keyboard), prior.clickOutside + Count(c.closeOnClickOutside))
  }

  function Build(c: MenuConfig, isOpen: bool, matches: set<string>, prior: Bindings): Widget {
    var b := CreateElements(c, matches);
    Widget(c, Panel(isOpen, b.menu, b.toggle), b.title, b.entries, b.placement, true, BindEvents(c, prior))
  }

  /** Construction: merge, build, insert, bind. The menu starts closed and synchronised. */
  function Construct(o: Options, matches: set<string>): (w: Widget)
    ensures w.config == MergeOptions(o)
    ensures !w.panel.isOpen && Synced(w.panel)
    ensures Rendered(w) && w.attached
    ensures w.placement == Place(o.containerId, matches)
    ensures w.bindings == Bindings(w.config.trigger.button, Count(w.config.trigger.keyboard), Count(w.config.closeOnClickOutside))
  {
    Build(MergeOptions(o), false, matches, NO_BINDINGS)
  }

  /**
   * Rebuild: removes the container, creates everything again and binds
   * again. The flag survives, the elements look closed, the new toggle gets
   * its own click listener, and one more document listener of each enabled
   * kind points at the instance.
   */
  function Refresh(w: Widget, matches: set<string>): (r: Widget)
    ensures r.config == w.config
    ensures r.panel.isOpen == w.panel.isOpen && LooksClosed(r.panel)
    ensures Rendered(r) && r.attached
    ensures r.bindings == BindEvents(w.config, w.bindings)
    ensures r.bindings.keydown == w.bindings.keydown + Count(w.config.trigger.keyboard)
    ensures r.bindings.clickOutside == w.bindings.clickOutside + Count(w.config.closeOnClickOutside)
    ensures r.placement == Place(w.config.containerId, matches)
  {
    Build(w.config, w.panel.isOpen, matches, w.bindings)
  }

  /**
   * Appends a descriptor after all existing items and rebuilds; the
   * earlier entries keep their places and the new item's entries come last.
   */
  function AddItem(w: Widget, item: Item, matches: set<string>): (r: Widget)
    ensures r.config == w.config.(items := w.config.items + [item])
    ensures Rendered(w) ==> r.entries == w.entries + ItemEntries(item)
    ensures r.panel.isOpen == w.panel.isOpen && LooksClosed(r.panel)
    ensures Rendered(r)
    ensures r.attached && r.placement == Place(w.config.containerId, matches)
    ensures r.bindings == BindEvents(w.config, w.bindings)
    ensures r.bindings.keydown == w.bindings.keydown + Count(w.config.trigger.keyboard)
    ensures r.bindings.clickOutside == w.bindings.clickOutside + Count(w.config.closeOnClickOutside)
  {
    RenderAppend(w.config.items, [item]);
    assert Render([item]) == ItemEntries(item);
    Refresh(w.(config := w.config.(items := w.config.items + [item])), matches)
  }

  function AddItems(w: Widget, items: seq<Item>, matches: set<string>): Widget
    decreases |items|
  {
    if items == [] then w else AddItems(AddItem(w, items[0], matches), items[1..], matches)
  }

  /** Removes the container from the page; the document listeners stay. */
  function Destroy(w: Widget): (r: Widget)
    ensures !r.attached
    ensures r.panel == w.panel && r.bindings == w.bindings && r.config == w.config
    ensures r.title == w.title && r.entries == w.entries && r.placement == w.placement
  {
    w.(attached := false)
  }

  /** Delivers one event to the instance's listeners; only the state machine changes. */
  function Dispatch(w: Widget, ev: Event): (r: Widget)
    ensures r == w.(panel := r.panel)
    ensures r.panel == MenuToggle.Dispatch(w.panel, w.bindings, ev, w.config.trigger.key)
    ensures ev.KeyDown? && Gate(ev.focus, ev.key, w.config.trigger.key) == Fire ==>
              r.panel.isOpen == (w.panel.isOpen != Odd(w.bindings.keydown))
    ensures ev.KeyDown? && Gate(ev.focus, ev.key, w.config.trigger.key) != Fire ==> r == w
  {
    w.(panel := MenuToggle.Dispatch(w.panel, w.bindings, ev, w.config.trigger.key))
  }

  /** Each added item stacks one more keydown listener on the instance. */
  lemma {:induction false} AddItemsStackListeners(w: Widget, items: seq<Item>, matches: set<string>)
    ensures AddItems(w, items, matches).config.trigger == w.config.trigger
    ensures AddItems(w, items, matches).bindings.keydown == w.bindings.keydown + |items| * Count(w.config.trigger.keyboard)
    ensures AddItems(w, items, matches).panel.isOpen == w.panel.isOpen
    decreases |items|
  {
    if items != [] {
      AddItemsStackListeners(AddItem(w, items[0], matches), items[1..], matches);
    }
  }

  /**
   * After a single `addItem` on a fresh menu with the keyboard trigger on,
   * two keydown listeners flip the flag twice per press: the trigger key no
   * longer opens the menu.
   */
  lemma TriggerKeyCancelsAfterAddItem(o: Options, matches: set<string>, item: Item, focus: Focus, key: KeyEvent)
    requires MergeOptions(o).trigger.keyboard
    requires Gate(focus, key, MergeOptions(o).trigger.key) == Fire
    ensures var w := AddItem(Construct(o, matches), item, matches);
            w.bindings.keydown == 2 && !Dispatch(w, KeyDown(focus, key)).panel.isOpen
  {
  }

  /**
   * Refreshing an open menu leaves the flag set over closed-looking
   * elements, and the next toggle (click or key) then closes the already
   * closed-looking elements, changing nothing visible.
   */
  lemma RefreshWhileOpenDesyncs(w: Widget, matches: set<string>)
    requires w.panel.isOpen
    ensures var r := Refresh(w, matches);
            r.panel.isOpen && !Synced(r.panel)
            && var t := ToggleMenu(r.panel);
            !t.isOpen && t.menu == r.panel.menu && t.toggle == r.panel.toggle
  {
    var r := Refresh(w, matches);
    var t := ToggleMenu(r.panel);
    assert t.menu.classes == r.panel.menu.classes;
    assert t.toggle.classes == r.panel.toggle.classes;
    assert t.toggle.attrs == r.panel.toggle.attrs;
  }

  /** After `destroy` the keydown listeners are still attached and still flip the flag. */
  lemma DestroyedMenuStillHearsKeys(o: Options, matches: set<string>, focus: Focus, key: KeyEvent)
    requires MergeOptions(o).trigger.keyboard
    requires Gate(focus, key, MergeOptions(o).trigger.key) == Fire
    ensures Dispatch(Destroy(Construct(o, matches)), KeyDown(focus, key)).panel.isOpen
  {
  }

  /** A trigger object that sets only `key` keeps the button and keyboard defaults. */
  lemma PartialTriggerKeepsDefaults(o: Options, k: string)
    requires o.trigger == Some(TriggerOptions(None, None, Some(k)))
    ensures MergeOptions(o).trigger == Trigger(true, true, k)
  {
  }
}

=== FILE: config.dfy ===
/**
 * The nested `trigger` options every widget accepts, and their shallow
 * merge with the widget's defaults: each field the caller leaves out falls
 * back to its own default.
 */
module Config {
  import opened Dom

  /** The merged trigger settings a widget runs with. */
  datatype Trigger = Trigger(button: bool, keyboard: bool, key: string)

  /** The trigger defaults both debug menus start from. */
  const MENU_DEFAULT_TRIGGER := Trigger(true, true, "Escape")

  /** The caller's `trigger` object; any field may be missing. */
  datatype TriggerOptions = TriggerOptions(button: Option<bool>, keyboard: Option<bool>, key: Option<string>)

  /** A caller `trigger` object that sets every field. */
  function Full(t: Trigger): TriggerOptions {
    TriggerOptions(Some(t.button), Some(t.keyboard), Some(t.key))
  }

  /**
   * Spreads the caller's trigger object over the defaults. A missing
   * `trigger` object spreads nothing.
   */
  function MergeTrigger(defaults: Trigger, given: Option<TriggerOptions>): (r: Trigger)
    ensures given.None? ==> r == defaults
    ensures given.Some? && given.value.button.Some? ==> r.button == given.value.button.value
    ensures given.Some? && given.value.keyboard.Some? ==> r.keyboard == given.value.keyboard.value
    ensures given.Some? && given.value.key.Some? ==> r.key == given.value.key.value
    ensures (given.None? || given.value.button.None?) ==> r.button == defaults.button
    ensures (given.None? || given.value.keyboard.None?) ==> r.keyboard == defaults.keyboard
    ensures (given.None? || given.value.key.None?) ==> r.key == defaults.key
  {
    match given
    case None => defaults
    case Some(t) =>
      Trigger(t.button.GetOr(defaults.button), t.keyboard.GetOr(defaults.keyboard), t.key.GetOr(defaults.key))
  }

  /**
   * A fully specified trigger object wins over any defaults, and merging the
   * same caller object again onto an already merged result changes nothing.
   */
  lemma MergeTriggerOverridesAndSettles(d: Trigger, d': Trigger, t: Trigger, given: Option<TriggerOptions>)
    ensures MergeTrigger(d, Some(Full(t))) == MergeTrigger(d', Some(Full(t))) == t
    ensures MergeTrigger(MergeTrigger(d, given), given) == MergeTrigger(d, given)
    ensures MergeTrigger(d, Some(TriggerOptions(None, None, None))) == d
  {
  }
}

=== FILE: dom.dfy ===
/**
 * Plain records standing in for the few DOM notions the widgets touch:
 * optional values, elements reduced to their class list and attributes,
 * and the two kinds of event the widgets listen for.
 */
module Dom {
  import opened Keyboard

  datatype Option<+T> = None | Some(value: T) {
    /** The value, or `default` when the caller left the option out. */
    function GetOr(default: T): T {
      match this
      case Some(v) => v
      case None => default
    }
  }

  /** An element as the widgets see it: its class list and its attributes. */
  datatype Element = Element(classes: set<string>, attrs: map<string, string>)

  function AddClass(e: Element, c: string): Element {
    e.(classes := e.classes + {c})
  }

  function RemoveClass(e: Element, c: string): Element {
    e.(classes := e.classes - {c})
  }

  function SetAttr(e: Element, name: string, value: string): Element {
    e.(attrs := e.attrs[name := value])
  }

  /** The class that marks an open panel (menu card or drawer). */
  const OPEN_CLASS := "is-open"

  /** The toggle button's expanded-state attribute. */
  const EXPANDED := "aria-expanded"

  /** Element lookup by id: the page is a map from ids to elements; no element has the empty id. */
  function Lookup(doc: map<string, Element>, id: string): Option<Element> {
    if id != "" && id in doc then Some(doc[id]) else None
  }

  /** How a boolean reads once stored as an attribute value. */
  function BoolText(b: bool): string {
    if b then "true" else "false"
  }

  /** How many listeners one enabled flag attaches. */
  function Count(b: bool): nat {
    if b then 1 else 0
  }

  /** JavaScript truthiness of an optional string: present and non-empty. */
  predicate Truthy(s: Option<string>) {
    s.Some? && s.value != ""
  }

  /** Where a click landed, relative to a widget's panel and its toggle control. */
  datatype Target = Target(inPanel: bool, inToggle: bool)

  /** One event as it reaches the document. */
  datatype Event =
    | KeyDown(focus: Focus, key: KeyEvent)
    | Click(target: Target)
}

=== FILE: drawer.dfy ===
/**
 * The drawer/sidebar: an existing drawer and toggle button found by id,
 * opened and closed by the button or a keyboard shortcut. It has no
 * click-outside dismissal, and besides its class it keeps `aria-hidden`
 * on the drawer and `aria-expanded` on the toggle in step with the flag.
 */
module Drawer {
  import opened Dom
  import opened Keyboard
  import opened Config

  /** The caller's options; a missing field is None. */
  datatype Options = Options(drawerId: Option<string>, toggleId: Option<string>, trigger: Option<TriggerOptions>)

  datatype DrawerConfig = DrawerConfig(drawerId: string, toggleId: string, trigger: Trigger)

  const DEFAULT_TRIGGER := Trigger(true, true, "m")

  function MergeOptions(o: Options): (c: DrawerConfig)
    ensures o.drawerId.Some? ==> c.drawerId == o.drawerId.value
    ensures o.drawerId.None? ==> c.drawerId == "drawer"
    ensures o.toggleId.Some? ==> c.toggleId == o.toggleId.value
    ensures o.toggleId.None? ==> c.toggleId == "drawer-toggle"
    ensures c.trigger.button == (if o.trigger.Some? && o.trigger.value.button.Some? then o.trigger.value.button.value else true)
    ensures c.trigger.keyboard == (if o.trigger.Some? && o.trigger.value.keyboard.Some? then o.trigger.value.keyboard.value else true)
    ensures c.trigger.key == (if o.trigger.Some? && o.trigger.value.key.Some? then o.trigger.value.key.value else "m")
  {
    DrawerConfig(o.drawerId.GetOr("drawer"), o.toggleId.GetOr("drawer-toggle"), MergeTrigger(DEFAULT_TRIGGER, o.trigger))
  }

  const HIDDEN := "aria-hidden"

  datatype DrawerState = DrawerState(isOpen: bool, drawer: Element, toggle: Element)

  /** The flag, the drawer's class and both accessibility attributes agree. */
  predicate Synced(s: DrawerState) {
    && (OPEN_CLASS in s.drawer.classes <==> s.isOpen)
    && HIDDEN in s.drawer.attrs && s.drawer.attrs[HIDDEN] == BoolText(!s.isOpen)
    && EXPANDED in s.toggle.attrs && s.toggle.attrs[EXPANDED] == BoolText(s.isOpen)
  }

  /** `q` differs from `s` at most in the marks the drawer owns. */
  predicate OnlyMarksDiffer(s: DrawerState, q: DrawerState) {
    && q.drawer.classes - {OPEN_CLASS} == s.drawer.classes - {OPEN_CLASS}
    && q.drawer.attrs - {HIDDEN} == s.drawer.attrs - {HIDDEN}
    && q.toggle.classes == s.toggle.classes
    && q.toggle.attrs - {EXPANDED} == s.toggle.attrs - {EXPANDED}
  }

  /**
   * Negates the flag, then forces the class to match it and writes both
   * booleans out as attribute text.
   */
  function ToggleDrawer(s: DrawerState): (r: DrawerState)
    ensures r.isOpen == !s.isOpen && Synced(r) && OnlyMarksDiffer(s, r)
  {
    var o := !s.isOpen;
    var drawer := if o then AddClass(s.drawer, OPEN_CLASS) else RemoveClass(s.drawer, OPEN_CLASS);
    DrawerState(o, SetAttr(drawer, HIDDEN, BoolText(!o)), SetAttr(s.toggle, EXPANDED, BoolText(o)))
  }

  function Open(s: DrawerState): (r: DrawerState)
    ensures r.isOpen && Synced(r) && OnlyMarksDiffer(s, r)
  {
    DrawerState(true, SetAttr(AddClass(s.drawer, OPEN_CLASS), HIDDEN, "false"), SetAttr(s.toggle, EXPANDED, "true"))
  }

  function Close(s: DrawerState): (r: DrawerState)
    ensures !r.isOpen && Synced(r) && OnlyMarksDiffer(s, r)
  {
    DrawerState(false, SetAttr(RemoveClass(s.drawer, OPEN_CLASS), HIDDEN, "true"), SetAttr(s.toggle, EXPANDED, "false"))
  }

  /** `open`/`close` are idempotent and write exactly what a toggle into that state writes. */
  lemma OpenCloseAgreeWithToggle(s: DrawerState)
    ensures Open(Open(s)) == Open(s) && Close(Close(s)) == Close(s)
    ensures !s.isOpen ==> Open(s) == ToggleDrawer(s)
    ensures s.isOpen ==> Close(s) == ToggleDrawer(s)
  {
  }

  /** From a synchronised state two toggles restore everything. */
  lemma ToggleInvolution(s: DrawerState)
    requires Synced(s)
    ensures ToggleDrawer(ToggleDrawer(s)) == s
  {
    var q := ToggleDrawer(ToggleDrawer(s));
    assert q.drawer.classes == s.drawer.classes;
    assert q.drawer.attrs == s.drawer.attrs;
    assert q.toggle.attrs == s.toggle.attrs;
  }

  datatype Op = ToggleOp | OpenOp | CloseOp

  function Apply(s: DrawerState, op: Op): DrawerState {
    match op
    case ToggleOp => ToggleDrawer(s)
    case OpenOp => Open(s)
    case CloseOp => Close(s)
  }

  function Run(s: DrawerState, ops: seq<Op>): DrawerState
    decreases |ops|
  {
    if ops == [] then s else Run(Apply(s, ops[0]), ops[1..])
  }

  /**
   * After any non-empty sequence of toggles, opens and closes the drawer is
   * synchronised: `aria-hidden` is the negation of `aria-expanded` and the
   * class is present exactly when the drawer is open.
   */
  lemma {:induction false} RunKeepsSynced(s: DrawerState, ops: seq<Op>)
    requires Synced(s) || ops != []
    ensures var r := Run(s, ops);
            Synced(r) && r.drawer.attrs[HIDDEN] != r.toggle.attrs[EXPANDED]
            && r.drawer.attrs[HIDDEN] in {"true", "false"} && r.toggle.attrs[EXPANDED] in {"true", "false"}
    decreases |ops|
  {
    if ops != [] {
      RunKeepsSynced(Apply(s, ops[0]), ops[1..]);
    }
  }

  /** An instance: configuration, flag, the two handles (None when not found) and its listeners. */
  datatype Widget = Widget(
    config: DrawerConfig,
    isOpen: bool,
    drawerEl: Option<Element>,
    toggleEl: Option<Element>,
    button: bool,
    keydown: bool)

  predicate Active(w: Widget) {
    w.drawerEl.Some? && w.toggleEl.Some?
  }

  /** An instance without its elements has no listeners. */
  predicate Consistent(w: Widget) {
    !Active(w) ==> !w.button && !w.keydown
  }

  function StateOf(w: Widget): DrawerState
    requires Active(w)
  {
    DrawerState(w.isOpen, w.drawerEl.value, w.toggleEl.value)
  }

  function WithState(w: Widget, s: DrawerState): Widget {
    w.(isOpen := s.isOpen, drawerEl := Some(s.drawer), toggleEl := Some(s.toggle))
  }


  /** Construction: merge, look both elements up, start closed, bind only when both exist. */
  function Construct(o: Options, doc: map<string, Element>): (w: Widget)
    ensures w.config == MergeOptions(o) && !w.isOpen
    ensures w.drawerEl == Lookup(doc, w.config.drawerId) && w.toggleEl == Lookup(doc, w.config.toggleId)
    ensures Active(w) <==> w.config.drawerId != "" && w.config.drawerId in doc && w.config.toggleId != "" && w.config.toggleId in doc
    ensures !Active(w) ==> !w.button && !w.keydown
    ensures Active(w) ==> w.button == w.config.trigger.button && w.keydown == w.config.trigger.keyboard
  {
    var c := MergeOptions(o);
    var drawer := Lookup(doc, c.drawerId);
    var toggle := Lookup(doc, c.toggleId);
    var found := drawer.Some? && toggle.Some?;
    Widget(c, false, drawer, toggle, found && c.trigger.button, found && c.trigger.keyboard)
  }

  /** The public `open`, on an instance whose elements exist. */
  function OpenDrawer(w: Widget): (r: Widget)
    requires Active(w)
    ensures Active(r) && r.isOpen && Synced(StateOf(r))
    ensures StateOf(r) == Open(StateOf(w))
    ensures r.config == w.config && r.button == w.button && r.keydown == w.keydown
  {
    WithState(w, Open(StateOf(w)))
  }

  /** The public `close`, on an instance whose elements exist. */
  function CloseDrawer(w: Widget): (r: Widget)
    requires Active(w)
    ensures Active(r) && !r.isOpen && Synced(StateOf(r))
    ensures StateOf(r) == Close(StateOf(w))
    ensures r.config == w.config && r.button == w.button && r.keydown == w.keydown
  {
    WithState(w, Close(StateOf(w)))
  }

  /**
   * Delivers one event. Only a click on the toggle (button trigger on) and
   * a firing keydown (keyboard trigger on) change anything; there is no
   * click-outside handler.
   */
  function Dispatch(w: Widget, ev: Event): (r: Widget)
    requires Consistent(w)
    ensures Consistent(r) && Active(r) == Active(w)
    ensures r.config == w.config && r.button == w.button && r.keydown == w.keydown
    ensures ev.Click? && !(ev.target.inToggle && w.button) ==> r == w
    ensures ev.KeyDown? && !(w.keydown && Gate(ev.focus, ev.key, w.config.trigger.key) == Fire) ==> r == w
    ensures r != w ==> Active(w) && StateOf(r) == ToggleDrawer(StateOf(w))
    ensures Active(w) && ev.Click? && ev.target.inToggle && w.button ==> r == WithState(w, ToggleDrawer(StateOf(w)))
    ensures Active(w) && ev.KeyDown? && w.keydown && Gate(ev.focus, ev.key, w.config.trigger.key) == Fire ==>
              r == WithState(w, ToggleDrawer(StateOf(w)))
  {
    if !Active(w) then w
    else
      match ev
      case Click(t) =>
        if t.inToggle && w.button then WithState(w, ToggleDrawer(StateOf(w))) else w
      case KeyDown(focus, key) =>
        if w.keydown && Gate(focus, key, w.config.trigger.key) == Fire then WithState(w, ToggleDrawer(StateOf(w))) else w
  }

  /** An open drawer stays open whatever is clicked outside its toggle. */
  lemma NoClickOutsideDismissal(w: Widget, t: Target)
    requires Consistent(w) && w.isOpen && !t.inToggle
    ensures Dispatch(w, Click(t)).isOpen
  {
  }

  /** An instance constructed without its elements never reacts to anything. */
  lemma InertInstanceIgnoresEvents(o: Options, doc: map<string, Element>, ev: Event)
    requires Lookup(doc, MergeOptions(o).drawerId).None? || Lookup(doc, MergeOptions(o).toggleId).None?
    ensures Dispatch(Construct(o, doc), ev) == Construct(o, doc)
  {
  }

  /** The default shortcut is `m` in either case, unless the user is typing. */
  lemma DefaultShortcut(o: Options, doc: map<string, Element>)
    requires o.trigger.None? && Active(Construct(o, doc))
    ensures Dispatch(Construct(o, doc), KeyDown(Focus("BODY", false), KeyEvent("M", false, false, false))).isOpen
    ensures !Dispatch(Construct(o, doc), KeyDown(Focus("TEXTAREA", false), KeyEvent("M", false, false, false))).isOpen
  {
    assert Gate(Focus("BODY", false), KeyEvent("M", false, false, false), "m") == Fire by {
      assert SameIgnoringCase("M", "m") by {
        assert CharEqIgnoringCase('M', 'm');
      }
    }
  }
}

=== FILE: keyboard.dfy ===
/**
 * The keyboard shortcut gate shared by all three widgets.
 *
 * Every widget's keydown handler first ignores the event when an editable
 * element has focus or a modifier key is held, and otherwise compares the
 * pressed key with the configured trigger key case-insensitively. Case is
 * folded over ASCII letters only.
 */
module Keyboard {

  /** The element that has focus when the key goes down (the document's active element). */
  datatype Focus = Focus(tagName: string, isContentEditable: bool)

  /** The parts of a keydown event the handlers read. */
  datatype KeyEvent = KeyEvent(key: string, ctrlKey: bool, metaKey: bool, altKey: bool)

  /** What a keydown handler does with one event. */
  datatype Verdict =
    | Suppressed  // typing into an editable element, or a modifier is held
    | Mismatch    // some key other than the trigger key
    | Fire        // the trigger key: prevent the default action and flip the widget

  predicate IsUpper(c: char) {
    'A' <= c <= 'Z'
  }

  predicate IsLetter(c: char) {
    'A' <= c <= 'Z' || 'a' <= c <= 'z'
  }

  function LowerChar(c: char): char {
    if IsUpper(c) then (c as int + 32) as char else c
  }

  /** ASCII lower-casing of a whole string, character by character. */
  function Lower(s: string): (r: string)
    ensures |r| == |s|
    ensures forall i :: 0 <= i < |s| ==> r[i] == LowerChar(s[i])
  {
    if s == [] then [] else [LowerChar(s[0])] + Lower(s[1..])
  }

  /** Two characters are the same letter up to case, or simply equal. */
  predicate CharEqIgnoringCase(x: char, y: char) {
    x == y || (IsLetter(x) && IsLetter(y) && (x as int - y as int == 32 || y as int - x as int == 32))
  }

  /** Reference definition of case-insensitive equality, independent of Lower. */
  predicate SameIgnoringCase(a: string, b: string) {
    |a| == |b| && forall i :: 0 <= i < |a| ==> CharEqIgnoringCase(a[i], b[i])
  }

  /** The element types in which typing must not trigger a widget. */
  predicate Editable(f: Focus) {
    f.tagName == "INPUT" || f.tagName == "TEXTAREA" || f.isContentEditable
  }

  predicate Modified(e: KeyEvent) {
    e.ctrlKey || e.metaKey || e.altKey
  }

  lemma LowerCharAgrees(x: char, y: char)
    ensures LowerChar(x) == LowerChar(y) <==> CharEqIgnoringCase(x, y)
  {
  }

  /** Comparing lower-cased strings is exactly case-insensitive equality. */
  lemma LowerEqIff(a: string, b: string)
    ensures Lower(a) == Lower(b) <==> SameIgnoringCase(a, b)
  {
    if |a| == |b| {
      forall i | 0 <= i < |a|
        ensures LowerChar(a[i]) == LowerChar(b[i]) <==> CharEqIgnoringCase(a[i], b[i])
      {
        LowerCharAgrees(a[i], b[i]);
      }
      if SameIgnoringCase(a, b) {
        assert forall i :: 0 <= i < |a| ==> Lower(a)[i] == Lower(b)[i];
      }
    } else {
      assert |Lower(a)| != |Lower(b)|;
    }
  }

  /**
   * The handler's decision: editable focus and modifiers silence it, and
   * otherwise it fires exactly on a case-insensitive match with the trigger.
   */
  function Gate(focus: Focus, ev: KeyEvent, triggerKey: string): (v: Verdict)
    ensures v == Suppressed <==> Editable(focus) || Modified(ev)
    ensures v == Fire <==> !Editable(focus) && !Modified(ev) && SameIgnoringCase(ev.key, triggerKey)
  {
    LowerEqIff(ev.key, triggerKey);
    if Editable(focus) then Suppressed
    else if Modified(ev) then Suppressed
    else if Lower(ev.key) == Lower(triggerKey) then Fire
    else Mismatch
  }

  lemma LowerIdempotent(s: string)
    ensures Lower(Lower(s)) == Lower(s)
  {
    assert forall i :: 0 <= i < |s| ==> Lower(Lower(s))[i] == Lower(s)[i];
  }

  /** Changing the case of the pressed key or of the trigger key never changes the verdict. */
  lemma {:induction false} GateIgnoresCase(focus: Focus, ev: KeyEvent, triggerKey: string)
    ensures Gate(focus, ev.(key := Lower(ev.key)), triggerKey) == Gate(focus, ev, triggerKey)
    ensures Gate(focus, ev, Lower(triggerKey)) == Gate(focus, ev, triggerKey)
  {
    LowerIdempotent(ev.key);
    LowerIdempotent(triggerKey);
    LowerEqIff(Lower(ev.key), triggerKey);
    LowerEqIff(ev.key, triggerKey);
    LowerEqIff(ev.key, Lower(triggerKey));
  }

  /** Case-insensitive key equality is an equivalence relation. */
  lemma SameIgnoringCaseEquivalence(a: string, b: string, c: string)
    ensures SameIgnoringCase(a, a)
    ensures SameIgnoringCase(a, b) ==> SameIgnoringCase(b, a)
    ensures SameIgnoringCase(a, b) && SameIgnoringCase(b, c) ==> SameIgnoringCase(a, c)
  {
    LowerEqIff(a, a);
    LowerEqIff(a, b);
    LowerEqIff(b, a);
    LowerEqIff(b, c);
    LowerEqIff(a, c);
  }
}

=== FILE: menu_render.dfy ===
/**
 * Rendering of the self-building menu's item list: an ordered sequence of
 * item descriptors becomes an ordered sequence of list entries, each an
 * anchor (with an optional icon before its label) or a separator.
 */
module MenuRender {
  import opened Dom

  /** One menu item descriptor as the caller writes it (`labelText` is its `label`). A missing `separator` reads as false. */
  datatype Item = Item(labelText: string, href: string, icon: Option<string>, target: Option<string>, separator: bool)

  /** The children of a rendered anchor: an icon image, or the label span. */
  datatype Child = Icon(src: string) | Label(text: string)

  datatype Anchor = Anchor(href: string, target: Option<string>, classes: set<string>, children: seq<Child>)

  /** One `li` of the rendered list. */
  datatype Entry = Link(anchor: Anchor) | Separator

  const HAS_ICON := "has-icon"

  /**
   * The anchor for one item. `icon` and `target` take effect only when
   * truthy, so an empty string counts as absent.
   */
  function RenderItem(item: Item): (a: Anchor)
    ensures a.href == item.href
    ensures a.target == (if Truthy(item.target) then item.target else None)
    ensures Truthy(item.icon) ==> a.classes == {HAS_ICON} && a.children == [Icon(item.icon.value), Label(item.labelText)]
    ensures !Truthy(item.icon) ==> a.classes == {} && a.children == [Label(item.labelText)]
  {
    var target := if Truthy(item.target) then item.target else None;
    if Truthy(item.icon) then Anchor(item.href, target, {HAS_ICON}, [Icon(item.icon.value), Label(item.labelText)])
    else Anchor(item.href, target, {}, [Label(item.labelText)])
  }

  /** The item fields rendering depends on: falsy icon and target dropped, no separator. */
  function Normalize(item: Item): Item {
    Item(item.labelText, item.href,
         if Truthy(item.icon) then item.icon else None,
         if Truthy(item.target) then item.target else None,
         false)
  }

  /** Reads an item back off a rendered anchor; the inverse of RenderItem. */
  function ItemOfAnchor(a: Anchor): Option<Item> {
    if |a.children| == 1 && a.children[0].Label? && a.classes == {} then
      Some(Item(a.children[0].text, a.href, None, a.target, false))
    else if |a.children| == 2 && a.children[0].Icon? && a.children[1].Label? && a.classes == {HAS_ICON} then
      Some(Item(a.children[1].text, a.href, Some(a.children[0].src), a.target, false))
    else None
  }

  /** An anchor carries everything about its item except the separator flag and falsy options. */
  lemma AnchorRoundTrip(item: Item, other: Item)
    ensures ItemOfAnchor(RenderItem(item)) == Some(Normalize(item))
    ensures RenderItem(item) == RenderItem(other) <==> Normalize(item) == Normalize(other)
  {
    if RenderItem(item) == RenderItem(other) {
      assert ItemOfAnchor(RenderItem(other)) == Some(Normalize(other));
    }
  }

  function SeparatorCount(items: seq<Item>): nat {
    if items == [] then 0 else (if items[0].separator then 1 else 0) + SeparatorCount(items[1..])
  }

  /** The entries one item contributes: its anchor, then a separator when it asks for one. */
  function ItemEntries(item: Item): seq<Entry> {
    [Link(RenderItem(item))] + (if item.separator then [Separator] else [])
  }

  /** The rendered list, one item after another in input order. */
  function Render(items: seq<Item>): (r: seq<Entry>)
    ensures |r| == |items| + SeparatorCount(items)
  {
    if items == [] then [] else ItemEntries(items[0]) + Render(items[1..])
  }

  lemma {:induction false} RenderAppend(xs: seq<Item>, ys: seq<Item>)
    ensures Render(xs + ys) == Render(xs) + Render(ys)
    ensures SeparatorCount(xs + ys) == SeparatorCount(xs) + SeparatorCount(ys)
    decreases |xs|
  {
    if xs == [] {
      assert xs + ys == ys;
    } else {
      assert (xs + ys)[1..] == xs[1..] + ys;
      RenderAppend(xs[1..], ys);
    }
  }

  /** Index of item `i`'s anchor within the rendered list. */
  function Pos(items: seq<Item>, i: nat): nat
    requires i <= |items|
  {
    i + SeparatorCount(items[..i])
  }

  /**
   * Where each item lands: its anchor sits at Pos, a separator follows it
   * exactly when the item asks for one, and the next item's anchor comes
   * right after that.
   */
  lemma EntryLayout(items: seq<Item>, i: nat)
    requires i < |items|
    ensures Pos(items, i) < |Render(items)|
    ensures Render(items)[Pos(items, i)] == Link(RenderItem(items[i]))
    ensures items[i].separator ==> Pos(items, i) + 1 < |Render(items)| && Render(items)[Pos(items, i) + 1] == Separator
    ensures Pos(items, i + 1) == Pos(items, i) + (if items[i].separator then 2 else 1)
  {
    assert items == items[..i] + [items[i]] + items[i + 1..];
    RenderAppend(items[..i] + [items[i]], items[i + 1..]);
    RenderAppend(items[..i], [items[i]]);
    assert items[..i + 1] == items[..i] + [items[i]];
    assert Render([items[i]]) == ItemEntries(items[i]);
  }

  /** The anchors of a list of entries, in order. */
  function Links(entries: seq<Entry>): seq<Anchor> {
    if entries == [] then []
    else (if entries[0].Link? then [entries[0].anchor] else []) + Links(entries[1..])
  }

  function SeparatorEntries(entries: seq<Entry>): nat {
    if entries == [] then 0 else (if entries[0].Separator? then 1 else 0) + SeparatorEntries(entries[1..])
  }

  lemma {:induction false} LinksAppend(xs: seq<Entry>, ys: seq<Entry>)
    ensures Links(xs + ys) == Links(xs) + Links(ys)
    ensures SeparatorEntries(xs + ys) == SeparatorEntries(xs) + SeparatorEntries(ys)
    decreases |xs|
  {
    if xs == [] {
      assert xs + ys == ys;
    } else {
      assert (xs + ys)[1..] == xs[1..] + ys;
      LinksAppend(xs[1..], ys);
    }
  }

  /**
   * The anchors of the rendered list are exactly the items' anchors in input
   * order, and the list holds one separator per separator-flagged item.
   */
  lemma {:induction false} RenderedLinks(items: seq<Item>)
    ensures Links(Render(items)) == seq(|items|, i requires 0 <= i < |items| => RenderItem(items[i]))
    ensures SeparatorEntries(Render(items)) == SeparatorCount(items)
    decreases |items|
  {
    if items != [] {
      var x := items[0];
      LinksAppend(ItemEntries(x), Render(items[1..]));
      RenderedLinks(items[1..]);
      if x.separator {
        LinksAppend([Link(RenderItem(x))], [Separator]);
      }
    }
  }

  /** Every separator directly follows an anchor: none leads the list and no two are adjacent. */
  lemma {:induction false} SeparatorsFollowLinks(items: seq<Item>, j: nat)
    requires j < |Render(items)| && Render(items)[j].Separator?
    ensures 0 < j && Render(items)[j - 1].Link?
    decreases |items|
  {
    var head := ItemEntries(items[0]);
    assert Render(items) == head + Render(items[1..]);
    if j >= |head| {
      SeparatorsFollowLinks(items[1..], j - |head|);
      if j - |head| == 0 {
        assert false;
      }
    }
  }

  /**
   * The list-building loop: walks the items in order, appending each
   * anchor and, when flagged, a separator.
   */
  method RenderList(items: seq<Item>) returns (list: seq<Entry>)
    ensures list == Render(items)
  {
    list := [];
    var i := 0;
    while i < |items|
      invariant i <= |items|
      invariant list == Render(items[..i])
    {
      var item := items[i];
      RenderAppend(items[..i], [item]);
      assert items[..i + 1] == items[..i] + [item];
      list := list + [Link(RenderItem(item))];
      if item.separator {
        list := list + [Separator];
      }
      i := i + 1;
    }
    assert items[..i] == items;
  }

  /** A three-item list: the separator sits right after the second item, the icon in the third anchor. */
  lemma ThreeItemExample()
    ensures var a := Item("A", "#a", None, None, false);
            var b := Item("B", "#b", None, None, true);
            var c := Item("C", "#c", Some("x.png"), None, false);
            Render([a, b, c]) == [
              Link(Anchor("#a", None, {}, [Label("A")])),
              Link(Anchor("#b", None, {}, [Label("B")])),
              Separator,
              Link(Anchor("#c", None, {HAS_ICON}, [Icon("x.png"), Label("C")]))]
  {
    var a := Item("A", "#a", None, None, false);
    var b := Item("B", "#b", None, None, true);
    var c := Item("C", "#c", Some("x.png"), None, false);
    assert [a, b, c][1..] == [b, c];
    assert [b, c][1..] == [c];
    assert Render([c]) == [Link(Anchor("#c", None, {HAS_ICON}, [Icon("x.png"), Label("C")]))];
    assert Render([b, c]) == [Link(Anchor("#b", None, {}, [Label("B")])), Separator] + Render([c]);
    assert Render([a, b, c]) == [Link(Anchor("#a", None, {}, [Label("A")]))] + Render([b, c]);
  }
}

=== FILE: menu_toggle.dfy ===
/**
 * The open/closed state machine both debug menus share, and the way the
 * document's listeners feed events into it.
 *
 * The state is the `isOpen` flag together with the two elements it drives:
 * the menu card (class `is-open`) and the toggle button (class `is-active`
 * and attribute `aria-expanded`).
 */
module MenuToggle {
  import opened Dom
  import opened Keyboard

  const ACTIVE_CLASS := "is-active"

  datatype Panel = Panel(isOpen: bool, menu: Element, toggle: Element)

  /** The flag and the three visible marks agree. */
  predicate Synced(p: Panel) {
    && (OPEN_CLASS in p.menu.classes <==> p.isOpen)
    && (ACTIVE_CLASS in p.toggle.classes <==> p.isOpen)
    && EXPANDED in p.toggle.attrs
    && p.toggle.attrs[EXPANDED] == BoolText(p.isOpen)
  }

  /** `q` differs from `p` at most in the marks the state machine owns. */
  predicate OnlyMarksDiffer(p: Panel, q: Panel) {
    && q.menu.classes - {OPEN_CLASS} == p.menu.classes - {OPEN_CLASS}
    && q.menu.attrs == p.menu.attrs
    && q.toggle.classes - {ACTIVE_CLASS} == p.toggle.classes - {ACTIVE_CLASS}
    && q.toggle.attrs - {EXPANDED} == p.toggle.attrs - {EXPANDED}
  }

  function Open(p: Panel): (r: Panel)
    ensures r.isOpen && Synced(r) && OnlyMarksDiffer(p, r)
  {
    Panel(true, AddClass(p.menu, OPEN_CLASS), SetAttr(AddClass(p.toggle, ACTIVE_CLASS), EXPANDED, "true"))
  }

  function Close(p: Panel): (r: Panel)
    ensures !r.isOpen && Synced(r) && OnlyMarksDiffer(p, r)
  {
    Panel(false, RemoveClass(p.menu, OPEN_CLASS), SetAttr(RemoveClass(p.toggle, ACTIVE_CLASS), EXPANDED, "false"))
  }

  /** Chooses the transition from the flag alone, whatever the elements show. */
  function ToggleMenu(p: Panel): (r: Panel)
    ensures r.isOpen == !p.isOpen && Synced(r) && OnlyMarksDiffer(p, r)
  {
    if p.isOpen then Close(p) else Open(p)
  }

  /** Click-outside dismissal: closes an open menu when the click lands outside both elements. */
  function ClickOutside(p: Panel, t: Target): (r: Panel)
    ensures r.isOpen ==> p.isOpen
    ensures !p.isOpen || t.inPanel || t.inToggle ==> r == p
    ensures p.isOpen && !t.inPanel && !t.inToggle ==> !r.isOpen && Synced(r) && OnlyMarksDiffer(p, r)
  {
    if !p.isOpen then p
    else if !t.inPanel && !t.inToggle then Close(p)
    else p
  }

  /** One keydown listener: flips the menu when the gate fires, otherwise leaves it alone. */
  function HandleKeydown(p: Panel, focus: Focus, ev: KeyEvent, triggerKey: string): (r: Panel)
    ensures Gate(focus, ev, triggerKey) == Fire ==> r == ToggleMenu(p)
    ensures Gate(focus, ev, triggerKey) != Fire ==> r == p
  {
    if Gate(focus, ev, triggerKey) == Fire then ToggleMenu(p) else p
  }

  predicate Odd(n: nat) {
    n % 2 == 1
  }

  /**
   * One keydown event delivered to `n` listeners bound to the same menu:
   * each one runs the handler, so a matching key flips the flag `n` times.
   */
  function KeydownListeners(p: Panel, n: nat, focus: Focus, ev: KeyEvent, triggerKey: string): (r: Panel)
    ensures Gate(focus, ev, triggerKey) != Fire ==> r == p
    ensures Gate(focus, ev, triggerKey) == Fire ==> r.isOpen == (p.isOpen != Odd(n))
    ensures Gate(focus, ev, triggerKey) == Fire && n > 0 ==> Synced(r)
    ensures OnlyMarksDiffer(p, r)
    decreases n
  {
    if n == 0 then p
    else KeydownListeners(HandleKeydown(p, focus, ev, triggerKey), n - 1, focus, ev, triggerKey)
  }

  lemma CloseIdempotent(p: Panel)
    ensures Close(Close(p)) == Close(p)
  {
  }

  lemma OpenIdempotent(p: Panel)
    ensures Open(Open(p)) == Open(p)
  {
  }

  /** A second click-outside changes nothing, so stacked click listeners act like one. */
  function ClickOutsideListeners(p: Panel, n: nat, t: Target): (r: Panel)
    ensures n == 0 ==> r == p
    ensures n > 0 ==> r == ClickOutside(p, t)
    decreases n
  {
    if n == 0 then p
    else
      ClickOutsideListeners(ClickOutside(p, t), n - 1, t)
  }

  /**
   * The listeners a menu instance has attached: whether its toggle button
   * carries a click listener, and how many document keydown and click
   * listeners point at it.
   */
  datatype Bindings = Bindings(button: bool, keydown: nat, clickOutside: nat)

  const NO_BINDINGS := Bindings(false, 0, 0)

  /**
   * Delivers one event. A click on the toggle with a bound button listener
   * flips the menu once and stops propagation, so the document's click
   * listeners never see it; every other click reaches them.
   */
  function Dispatch(p: Panel, b: Bindings, ev: Event, triggerKey: string): (r: Panel)
    ensures ev.Click? && ev.target.inToggle && b.button ==> r == ToggleMenu(p)
    ensures ev.Click? && !(ev.target.inToggle && b.button) ==> r.isOpen ==> p.isOpen
    ensures ev.Click? && !(ev.target.inToggle && b.button) && (ev.target.inToggle || ev.target.inPanel) ==> r == p
    ensures ev.KeyDown? && Gate(ev.focus, ev.key, triggerKey) != Fire ==> r == p
    ensures ev.Click? && !(ev.target.inToggle && b.button) && b.clickOutside > 0 ==> r == ClickOutside(p, ev.target)
    ensures ev.KeyDown? && Gate(ev.focus, ev.key, triggerKey) == Fire ==> r.isOpen == (p.isOpen != Odd(b.keydown))
    ensures ev.KeyDown? && Gate(ev.focus, ev.key, triggerKey) == Fire && b.keydown > 0 ==> Synced(r)
    ensures ev.Click? && !(ev.target.inToggle && b.button) && b.clickOutside == 0 ==> r == p
    ensures ev.KeyDown? && b.keydown == 0 ==> r == p
    ensures b == NO_BINDINGS ==> r == p
    ensures OnlyMarksDiffer(p, r)
  {
    match ev
    case KeyDown(focus, key) => KeydownListeners(p, b.keydown, focus, key, triggerKey)
    case Click(t) =>
      if t.inToggle && b.button then ToggleMenu(p)
      else ClickOutsideListeners(p, b.clickOutside, t)
  }

  /** Two toggles restore the flag from any state. */
  lemma ToggleTwiceRestoresFlag(p: Panel)
    ensures ToggleMenu(ToggleMenu(p)).isOpen == p.isOpen
  {
  }

  /** From a synchronised state, toggling twice restores the elements too. */
  lemma ToggleInvolution(p: Panel)
    requires Synced(p)
    ensures ToggleMenu(ToggleMenu(p)) == p
  {
    var q := ToggleMenu(ToggleMenu(p));
    assert q.menu.classes == p.menu.classes;
    assert q.toggle.classes == p.toggle.classes;
    assert q.toggle.attrs == p.toggle.attrs;
  }

  /** Without synchronisation the involution fails: a closed-looking but open menu comes back open-looking. */
  lemma ToggleTwiceFromDesync()
    ensures var p := Panel(true, Element({}, map[]), Element({}, map[EXPANDED := "false"]));
            ToggleMenu(ToggleMenu(p)) != p
  {
    var p := Panel(true, Element({}, map[]), Element({}, map[EXPANDED := "false"]));
    assert OPEN_CLASS in ToggleMenu(ToggleMenu(p)).menu.classes;
  }

  /** Only a click on the toggle with a bound button can open the menu through a click. */
  lemma OnlyToggleClickOpens(p: Panel, b: Bindings, t: Target, triggerKey: string)
    requires !p.isOpen
    ensures Dispatch(p, b, Click(t), triggerKey).isOpen <==> t.inToggle && b.button
  {
  }
}
